=== FILE: README.md ===
# Bitfinex v2 WebSocket session controller, modelled in Dafny

This project models the sequential logic of `BitfinexApiBroker`, the session
controller of a Java client for the Bitfinex v2 WebSocket API. The broker keeps
one long-lived socket session. It authenticates the session, keeps a registry from
server-assigned channel ids to stream symbols, routes every inbound frame, and
recovers the session after a failure by reconnecting and resubscribing.

The model is functional. The broker's state is an immutable `Broker.Session`
record that holds:

- the channel registry (`map<int, StreamSymbol>`);
- the authentication flag;
- the connection-ready latch as a counter;
- the connection heartbeat and the per-symbol heartbeat marks, read from an abstract `nat` clock;
- the credentials;
- the commands handed to the transport.

`StreamSymbol` is a closed datatype with three kinds: ticker, candle and order book.
Frames arrive already parsed, as a `JsonValues.Json` value next to their text. The
text's first character picks the route, as `String.startsWith` does. Every org.json
access that would throw returns `None` here, and the frame then ends with the effect
`Faulted`. Any state change made before the throw is kept.

A blocking wait becomes the list of frames the receive path processes while the
caller waits. This covers the 10-second latch await and the 500 ms registry polls.
The wait itself always returns.

Modules, one per file: `Basics` (Option/Result), `JsonValues` (parsed JSON and the
accessors), `Symbols` (stream symbols, the symbol constructors as a parameter,
outbound commands), `Registry` (the channel map), `Broker` (session state,
authentication callback and gating), `Router` (`websocketCallback` and everything
under it) and `Reconnect` (handshake, `connect`, resubscription, `reconnect`).

## Model

| member | source | states |
|---|---|---|
| JsonValues.Int32 | src/main/java/com/github/jnidzwetzki/bitfinex/v2/BitfinexApiBroker.java:429 | a JSON number read through `getInt` is narrowed to a Java `int`: the result is in 32-bit range, congruent to the number modulo 2^32, and equal to it when it already fits |
| JsonValues.GetString | src/main/java/com/github/jnidzwetzki/bitfinex/v2/BitfinexApiBroker.java:362 | `getString` yields a value exactly when the field is present and is a JSON string, and that value is the string |
| JsonValues.GetInt | src/main/java/com/github/jnidzwetzki/bitfinex/v2/BitfinexApiBroker.java:412 | `getInt` yields a value exactly when the field is a JSON number, narrowed to 32 bits |
| JsonValues.ItemInt | src/main/java/com/github/jnidzwetzki/bitfinex/v2/BitfinexApiBroker.java:476 | `JSONArray.getInt(i)` yields a value exactly when position i exists and holds a number |
| JsonValues.ItemString | src/main/java/com/github/jnidzwetzki/bitfinex/v2/BitfinexApiBroker.java:496 | `JSONArray.getString(i)` yields a value exactly when position i exists and holds a string |
| Symbols.SubscribeFor | src/main/java/com/github/jnidzwetzki/bitfinex/v2/BitfinexApiBroker.java:656-666 | each symbol kind is re-requested by its own subscribe command, and that command names the same symbol back |
| Registry.Bind | src/main/java/com/github/jnidzwetzki/bitfinex/v2/BitfinexApiBroker.java:456-461 | after binding, the channel resolves to the new symbol whatever it held before; every other channel keeps its binding; the size grows only when the channel was new |
| Registry.Unbind | src/main/java/com/github/jnidzwetzki/bitfinex/v2/BitfinexApiBroker.java:410-418 | after unbinding, the channel resolves to nothing; all other bindings stay; unbinding an absent channel changes nothing |
| Registry.Resolve | src/main/java/com/github/jnidzwetzki/bitfinex/v2/BitfinexApiBroker.java:562-566 | the lookup is absent exactly for unbound channels, and otherwise gives the bound symbol |
| Registry.ChannelForSymbol | src/main/java/com/github/jnidzwetzki/bitfinex/v2/BitfinexApiBroker.java:582-590 | any channel returned other than -1 carries the symbol; an unbound symbol gives -1; when channel -1 is free, -1 means exactly "unbound" |
| Registry.IsTickerActive | src/main/java/com/github/jnidzwetzki/bitfinex/v2/BitfinexApiBroker.java:573-575 | active only if a channel other than -1 carries the pair's ticker; a bound ticker is active whenever channel -1 does not carry it, so a ticker carried only by channel -1 is inactive |
| Registry.RemoveChannelForSymbol | src/main/java/com/github/jnidzwetzki/bitfinex/v2/BitfinexApiBroker.java:597-609 | true means one channel other than -1 carrying the symbol was removed and nothing else; false leaves the registry unchanged; an unbound symbol, or one carried only by channel -1, gives false; a symbol on a channel other than -1 is removed whenever channel -1 does not carry it |
| Registry.ResolveAfterOps | src/main/java/com/github/jnidzwetzki/bitfinex/v2/BitfinexApiBroker.java:410-461 | after any sequence of binds and unbinds, each channel resolves to what the last operation on it left, or to its earlier value when none touched it |
| Broker.NewBroker | src/main/java/com/github/jnidzwetzki/bitfinex/v2/BitfinexApiBroker.java:176-189 | a new broker has no channels, is not authenticated, has no latch and has sent nothing |
| Broker.CountDown | src/main/java/com/github/jnidzwetzki/bitfinex/v2/BitfinexApiBroker.java:401-403 | a latch count goes down by one and never below zero |
| Broker.TouchHeartbeat | src/main/java/com/github/jnidzwetzki/bitfinex/v2/BitfinexApiBroker.java:423-425 | the connection heartbeat becomes the clock reading and nothing else changes |
| Broker.AuthCallback | src/main/java/com/github/jnidzwetzki/bitfinex/v2/BitfinexApiBroker.java:388-404 | the connection is authenticated exactly when the status is "OK"; an existing latch counts down once; a missing latch stays missing; nothing else changes |
| Broker.Send | src/main/java/com/github/jnidzwetzki/bitfinex/v2/BitfinexApiBroker.java:317-325 | the command is appended to what was sent and nothing else changes |
| Broker.RequireAuthenticated | src/main/java/com/github/jnidzwetzki/bitfinex/v2/BitfinexApiBroker.java:785-789 | passes exactly on an authenticated connection |
| Broker.SendAuthenticated | src/main/java/com/github/jnidzwetzki/bitfinex/v2/BitfinexApiBroker.java:695-732 | an authenticated-only send fails with the unauthenticated error exactly when the flag is false, and then sends nothing |
| Broker.PlaceOrder | src/main/java/com/github/jnidzwetzki/bitfinex/v2/BitfinexApiBroker.java:695-702 | fails exactly when unauthenticated; otherwise it sends the order command and changes nothing else |
| Broker.CancelOrderById | src/main/java/com/github/jnidzwetzki/bitfinex/v2/BitfinexApiBroker.java:710-717 | fails exactly when unauthenticated; otherwise it sends the cancel command and changes nothing else |
| Broker.CancelGroup | src/main/java/com/github/jnidzwetzki/bitfinex/v2/BitfinexApiBroker.java:725-732 | fails exactly when unauthenticated; otherwise it sends the group-cancel command and changes nothing else |
| Broker.GetWallets | src/main/java/com/github/jnidzwetzki/bitfinex/v2/BitfinexApiBroker.java:763-770 | the wallets come back exactly on an authenticated connection |
| Broker.AuthCallbackGatesOrders | src/main/java/com/github/jnidzwetzki/bitfinex/v2/BitfinexApiBroker.java:388-404 | after an auth callback, placing an order and reading wallets succeed exactly when the status was "OK", and the callback itself sends nothing |
| Router.TagTableShape | src/main/java/com/github/jnidzwetzki/bitfinex/v2/BitfinexApiBroker.java:194-231 | the channel-0 table registers exactly eighteen distinct tags, and exactly os, on, ou and oc reach the order handler |
| Router.StreamHandlerFor | src/main/java/com/github/jnidzwetzki/bitfinex/v2/BitfinexApiBroker.java:539-550 | each symbol kind gets exactly one stream handler: ticker to tick, candle to candlestick, book to order book |
| Router.SubscribedSymbol | src/main/java/com/github/jnidzwetzki/bitfinex/v2/BitfinexApiBroker.java:431-445 | a ticker subscription is decoded from its "symbol" field, a candle from "key", a book from the whole event; it fails exactly when that field is missing or the constructor fails |
| Router.HandleSubscribed | src/main/java/com/github/jnidzwetzki/bitfinex/v2/BitfinexApiBroker.java:427-449 | a ticker, candles or book subscription with a chanId whose symbol decodes is handled by exactly one bind, of its chanId to the decoded symbol; a missing field or a failing symbol constructor aborts with the session unchanged; any other channel name is dropped with the session unchanged; only the registry can change |
| Router.HandleUnsubscribed | src/main/java/com/github/jnidzwetzki/bitfinex/v2/BitfinexApiBroker.java:410-418 | with a chanId, only that channel is unbound; without one, the frame aborts and nothing changes |
| Router.HandleAuth | src/main/java/com/github/jnidzwetzki/bitfinex/v2/BitfinexApiBroker.java:376-378 | with a status field, the auth callback decides the flag (status "OK"); without one, the frame aborts and nothing changes |
| Router.HandleApiCallback | src/main/java/com/github/jnidzwetzki/bitfinex/v2/BitfinexApiBroker.java:354-382 | "info" does nothing; "pong" refreshes the heartbeat; "subscribed", "unsubscribed" and "auth" go to their handlers; a missing event aborts; any other event is dropped with the session unchanged |
| Router.HandleSignaling | src/main/java/com/github/jnidzwetzki/bitfinex/v2/BitfinexApiBroker.java:490-509 | a channel-0 frame goes to the handler registered for its tag, an unknown tag is dropped, and the session never changes |
| Router.HandleChannelData | src/main/java/com/github/jnidzwetzki/bitfinex/v2/BitfinexApiBroker.java:517-555 | an unresolved channel is dropped unchanged; `"hb"` marks only that symbol's heartbeat; another string is rejected; an array goes to the symbol kind's handler; only the heartbeat marks can change |
| Router.HandleChannelCallback | src/main/java/com/github/jnidzwetzki/bitfinex/v2/BitfinexApiBroker.java:476-482 | channel 0 goes to signaling and any other channel id to channel data; a missing id aborts |
| Router.Route | src/main/java/com/github/jnidzwetzki/bitfinex/v2/BitfinexApiBroker.java:339-349 | `{` frames go to control dispatch; `[` frames refresh the heartbeat first and then go to channel dispatch; other frames are dropped unchanged; only registry events touch the registry and only auth events touch the flag and the latch; an armed latch stays armed and never goes up |
| Router.ProcessAll | src/main/java/com/github/jnidzwetzki/bitfinex/v2/BitfinexApiBroker.java:339-349 | processing any number of frames never sends a command, never touches the credentials, and keeps an armed latch armed without raising it |
| Router.ProcessAllKeepsRegistry | src/main/java/com/github/jnidzwetzki/bitfinex/v2/BitfinexApiBroker.java:364-381 | frames with no "subscribed" or "unsubscribed" event leave the registry exactly as it was |
| Router.ProcessAllKeepsAuth | src/main/java/com/github/jnidzwetzki/bitfinex/v2/BitfinexApiBroker.java:376-378 | frames with no "auth" event leave the flag and the latch as they were |
| Router.UnknownInputDropped | src/main/java/com/github/jnidzwetzki/bitfinex/v2/BitfinexApiBroker.java:339-349 | an unknown event, an unknown channel-0 tag, an unresolved channel or a frame that is neither object nor array is dropped, and at most the heartbeat changes |
| Router.HeartbeatRefreshed | src/main/java/com/github/jnidzwetzki/bitfinex/v2/BitfinexApiBroker.java:370-371 | a "pong" event and every array frame set the connection heartbeat to the clock reading |
| Router.BtcSubscribedBinds | src/main/java/com/github/jnidzwetzki/bitfinex/v2/BitfinexApiBroker.java:431-435 | the ticker subscription for tBTCUSD on channel 5 binds channel 5 to that ticker and changes nothing else |
| Router.Channel5HeartbeatMarks | src/main/java/com/github/jnidzwetzki/bitfinex/v2/BitfinexApiBroker.java:527-531 | `[5,"hb"]` on a bound channel 5 refreshes the connection heartbeat and that symbol's mark only, and reaches no handler |
| Router.SubscribeThenHeartbeat | src/main/java/com/github/jnidzwetzki/bitfinex/v2/BitfinexApiBroker.java:527-531 | after the tBTCUSD ticker subscription on channel 5, channel 5 resolves to that ticker, and `[5,"hb"]` marks its heartbeat without reaching a stream handler |
| Reconnect.ExecuteAuthentication | src/main/java/com/github/jnidzwetzki/bitfinex/v2/BitfinexApiBroker.java:261-273 | fails exactly when credentials are present and the connection is unauthenticated after the wait; with credentials it sends the auth command and leaves an armed latch of at most four; without them it only arms the latch at four |
| Reconnect.NoAuthReplyFails | src/main/java/com/github/jnidzwetzki/bitfinex/v2/BitfinexApiBroker.java:264-271 | with credentials and no auth reply during the wait, an unauthenticated connection fails the handshake and stays unauthenticated |
| Reconnect.AuthWaitKeepsRegistry | src/main/java/com/github/jnidzwetzki/bitfinex/v2/BitfinexApiBroker.java:261-273 | the handshake leaves the registry alone unless a registry event arrives during the wait |
| Reconnect.HandshakeNeedsKeyAndSecret | src/main/java/com/github/jnidzwetzki/bitfinex/v2/BitfinexApiBroker.java:279-281 | `isAuthenticatedConnection` needs both the key and the secret: missing either, the handshake cannot fail, sends nothing and leaves the flag alone; with both, it sends the auth command |
| Reconnect.Connect | src/main/java/com/github/jnidzwetzki/bitfinex/v2/BitfinexApiBroker.java:239-254 | a transport that fails to open fails the call and leaves the session unchanged; otherwise the heartbeat is refreshed and the handshake runs on that session and decides the result; with credentials exactly the auth command is sent and the latch is armed; without credentials only the heartbeat and the latch change |
| Reconnect.ConnectWithAuthReply | src/main/java/com/github/jnidzwetzki/bitfinex/v2/BitfinexApiBroker.java:388-399 | with credentials, an auth reply makes connect succeed and authenticate exactly when its status is "OK" |
| Reconnect.Resubscriptions | src/main/java/com/github/jnidzwetzki/bitfinex/v2/BitfinexApiBroker.java:656-666 | one subscribe command per listed channel, in the listed order, each for that channel's symbol |
| Reconnect.Cleared | src/main/java/com/github/jnidzwetzki/bitfinex/v2/BitfinexApiBroker.java:649-666 | after the snapshot is taken the registry is empty, the resubscriptions have been sent after the earlier commands, and nothing else changes |
| Reconnect.EnumerateChannels | src/main/java/com/github/jnidzwetzki/bitfinex/v2/BitfinexApiBroker.java:656 | the snapshot is walked over every channel exactly once |
| Reconnect.AwaitResubscription | src/main/java/com/github/jnidzwetzki/bitfinex/v2/BitfinexApiBroker.java:669-688 | given the session each of the twelve size checks sees, succeeds exactly when one check's size matches, stopping at the first match; when all twelve miss, the registry becomes the snapshot |
| Reconnect.Resubscribe | src/main/java/com/github/jnidzwetzki/bitfinex/v2/BitfinexApiBroker.java:646-689 | one subscribe per snapshot channel is sent; it succeeds exactly when some check's size matches the snapshot's, and then ends at the first such check; success means only that the sizes are equal; failure restores the registry to exactly the snapshot |
| Reconnect.PolledKeepsOutbox | src/main/java/com/github/jnidzwetzki/bitfinex/v2/BitfinexApiBroker.java:685 | frames that arrive during the wait send nothing and leave the credentials alone |
| Reconnect.QuietWaitKeepsRegistry | src/main/java/com/github/jnidzwetzki/bitfinex/v2/BitfinexApiBroker.java:672-686 | with no registry event during the wait, every check sees the registry the wait began with |
| Reconnect.UnconfirmedResubscriptionFails | src/main/java/com/github/jnidzwetzki/bitfinex/v2/BitfinexApiBroker.java:672-683 | when channels were bound and no confirmation arrives, all twelve checks miss, so the resubscription fails and rolls back |
| Reconnect.CandleConfirmationBinds | src/main/java/com/github/jnidzwetzki/bitfinex/v2/BitfinexApiBroker.java:436-440 | a candles subscription for channel 9 binds channel 9 to the decoded candle |
| Reconnect.SizeMatchIsNotEquality | src/main/java/com/github/jnidzwetzki/bitfinex/v2/BitfinexApiBroker.java:672 | a one-ticker snapshot is matched at the first check by an unrelated candle confirmation, although the registry then differs from the snapshot |
| Reconnect.Invalidate | src/main/java/com/github/jnidzwetzki/bitfinex/v2/BitfinexApiBroker.java:618-621 | reconnect first clears the authentication flag and forgets the per-symbol heartbeat marks, and changes nothing else |
| Reconnect.Reconnect | src/main/java/com/github/jnidzwetzki/bitfinex/v2/BitfinexApiBroker.java:615-639 | a transport failure fails with only the flag and marks cleared; an auth failure leaves the connection unauthenticated; a resubscribe failure ends in the last check's session with the post-handshake registry restored, so the heartbeat is not refreshed and the flag is what the handshake and the wait left; that registry is the pre-reconnect registry when no registry event came during the handshake; after a passed handshake the outcome is Reconnected exactly when some resubscription check matches the post-handshake registry size, the session is then the first matching check's with the heartbeat refreshed, and in both outcomes one subscribe per post-handshake channel follows the earlier commands; with credentials the auth command is sent before any of them |

## Left out

- The WebSocket transport is I/O. This covers opening, sending, closing, the URI and the consumer registration (lines 239-254, 295-311). Whether the transport comes up is a boolean parameter.
- Threads are not modelled: `HeartbeatThread`, the executor service, `synchronized`, `wait` and `notifyAll`. Each blocking wait is a list of frames processed in order, and the wait always returns.
- Staleness detection and the heartbeat thread's reconnect trigger are not modelled. `HeartbeatThread` is not part of this model.
- JSON tokenizing is not modelled. Each frame carries its parse result, and `None` means the tokenizer failed.
- JsonValues.GetInt, JsonValues.ItemInt: `getInt` on a numeric string (org.json accepts `"5"`) is not modelled; only JSON numbers yield an int. Non-integral JSON numbers are not modelled.
- The symbol constructors `fromSymbolString`, `fromBitfinexString` and `TradeOrderbookConfiguration.fromJSON` are foreign. They are the `Decoders` parameter, which may fail.
- Command encoding (`getCommand`) and its logged `CommandException` are left out. A sent command is simply appended to the outbox.
- The external handlers are not modelled: `TickHandler`, `CandlestickHandler`, `TradeOrderbookHandler` and the channel-0 handlers. A frame only records which one it reached. Their own effects are not modelled, for example latch count-downs by the order, position and wallet snapshots.
- `OrderManager.clear` and `PositionManager.clear` in `reconnect` are external. `QuoteManager.invalidateTickerHeartbeat` is not shown either; the model treats it as forgetting every per-symbol heartbeat mark.
- The `close()` of the transport in `reconnect`'s catch block is I/O and is not modelled.
- The wallet table contents, logging, the `message.contains("ERROR")` log line, the getters and wall-clock time are left out. The clock is a `nat` parameter.
- A frame whose JSON access throws ends with the effect `Faulted`. What `WebsocketClientEndpoint` then does with the exception is outside this model.
- The "not found" value -1 of `getChannelForSymbol` is also a legal `int` channel id, so a symbol bound only under channel -1 reads as absent, and when channel -1 and another channel both carry it `findAny` may pick either. The contracts of Registry.ChannelForSymbol, Registry.IsTickerActive and Registry.RemoveChannelForSymbol state exactly this, rather than assume channel ids are non-negative. The server does not assign negative channel ids.
- The model follows the code where a cleaner design might differ:
  - a "subscribed" event does not count the latch down;
  - `connect` does not tear the transport down after a failed handshake;
  - a failed `reconnect` closes the transport rather than leaving it open.
- `reconnect` is `synchronized` against itself, which is a concurrency guard and is not modelled.

=== FILE: basics.dfy ===
/** Failure-carrying wrappers shared by the whole model. */
module Basics {

  /** A value that may be absent: a Java `null` return or a lookup miss. */
  datatype Option<+T> = None | Some(value: T)

  /** The outcome of an operation that either returns a value or throws. */
  datatype Result<+T, +E> = Success(value: T) | Failure(error: E)
}

=== FILE: broker.dfy ===
/**
 * The broker's session state and the operations on it that do not route frames:
 * the authentication callback, the credentials check, and the operations that
 * refuse to run on an unauthenticated connection.
 */
module Broker {
  import opened Basics
  import opened Symbols
  import opened Registry

  /** The API key and secret, each possibly null. */
  datatype Credentials = Credentials(apiKey: Option<string>, apiSecret: Option<string>)

  /**
   * Everything the broker's sequential logic reads or writes.
   * `readyLatch` is the connection-ready latch's remaining count (None until the first
   * authentication attempt creates it); `heartbeat` is the last connection heartbeat and
   * `symbolBeats` the last heartbeat seen per stream symbol, both on an abstract clock;
   * `outbox` lists the commands handed to the transport, oldest first.
   */
  datatype Session = Session(
    channels: Channels,
    authenticated: bool,
    readyLatch: Option<nat>,
    heartbeat: nat,
    symbolBeats: map<StreamSymbol, nat>,
    credentials: Credentials,
    outbox: seq<Command>)

  /** Events the connection-ready latch waits for: authentication plus three snapshots. */
  const ConnectionReadyEvents: nat := 4

  /** The exception the broker raises; the only kind the model distinguishes. */
  datatype ApiError = Unauthenticated

  /** A freshly constructed broker: no channels, not authenticated, no latch yet. */
  function NewBroker(credentials: Credentials): (s: Session)
    ensures s.channels == map[] && !s.authenticated && s.readyLatch.None?
    ensures s.outbox == [] && s.symbolBeats == map[] && s.heartbeat == 0
    ensures s.credentials == credentials
  {
    Session(map[], false, None, 0, map[], credentials, [])
  }

  /** `isAuthenticatedConnection`: both the key and the secret were supplied. */
  predicate HasCredentials(s: Session) {
    s.credentials.apiKey.Some? && s.credentials.apiSecret.Some?
  }

  /** `CountDownLatch.countDown`: one less, never below zero. */
  function CountDown(count: nat): (r: nat)
    ensures count > 0 ==> r == count - 1
    ensures count == 0 ==> r == 0
  {
    if count > 0 then count - 1 else 0
  }

  /** `updateConnectionHeartbeat` at clock reading `now`. */
  function TouchHeartbeat(s: Session, now: nat): (r: Session)
    ensures r.heartbeat == now
    ensures r.(heartbeat := s.heartbeat) == s
  {
    s.(heartbeat := now)
  }

  /**
   * `handleAuthCallback` once the status field was read: the connection counts as
   * authenticated exactly when the status is "OK", and an existing latch counts down once.
   */
  function AuthCallback(s: Session, status: string): (r: Session)
    ensures r.authenticated <==> status == "OK"
    ensures r.readyLatch.None? <==> s.readyLatch.None?
    ensures s.readyLatch.Some? ==> r.readyLatch.value == CountDown(s.readyLatch.value)
    ensures r.(authenticated := s.authenticated, readyLatch := s.readyLatch) == s
  {
    var latch := match s.readyLatch
      case None => None
      case Some(n) => Some(CountDown(n));
    s.(authenticated := status == "OK", readyLatch := latch)
  }

  /** `sendCommand`: the command is handed to the transport; encoding is external. */
  function Send(s: Session, c: Command): (r: Session)
    ensures r.outbox == s.outbox + [c]
    ensures r.(outbox := s.outbox) == s
  {
    s.(outbox := s.outbox + [c])
  }

  /** `throwExceptionIfUnauthenticated`. */
  function RequireAuthenticated(s: Session): (r: Result<(), ApiError>)
    ensures r.Success? <==> s.authenticated
  {
    if s.authenticated then Success(()) else Failure(Unauthenticated)
  }

  /**
   * An authenticated-only operation that sends `c`: on an unauthenticated
   * connection it fails and nothing is sent.
   */
  function SendAuthenticated(s: Session, c: Command): (r: Result<Session, ApiError>)
    ensures r.Failure? <==> !s.authenticated
    ensures r.Failure? ==> r.error == Unauthenticated
    ensures r.Success? ==> r.value.outbox == s.outbox + [c] && r.value.(outbox := s.outbox) == s
  {
    match RequireAuthenticated(s)
    case Failure(e) => Failure(e)
    case Success(_) => Success(Send(s, c))
  }

  /** `placeOrder`. */
  function PlaceOrder(s: Session, order: string): (r: Result<Session, ApiError>)
    ensures r.Failure? <==> !s.authenticated
    ensures r.Success? ==> r.value.outbox == s.outbox + [NewOrder(order)]
    ensures r.Success? ==> r.value.(outbox := s.outbox) == s
  {
    SendAuthenticated(s, NewOrder(order))
  }

  /** `cancelOrder`. */
  function CancelOrderById(s: Session, id: int): (r: Result<Session, ApiError>)
    ensures r.Failure? <==> !s.authenticated
    ensures r.Success? ==> r.value.outbox == s.outbox + [CancelOrder(id)]
    ensures r.Success? ==> r.value.(outbox := s.outbox) == s
  {
    SendAuthenticated(s, CancelOrder(id))
  }

  /** `cancelOrderGroup`. */
  function CancelGroup(s: Session, group: int): (r: Result<Session, ApiError>)
    ensures r.Failure? <==> !s.authenticated
    ensures r.Success? ==> r.value.outbox == s.outbox + [CancelOrderGroup(group)]
    ensures r.Success? ==> r.value.(outbox := s.outbox) == s
  {
    SendAuthenticated(s, CancelOrderGroup(group))
  }

  /** `getWallets`: the wallet table (external) is returned only on an authenticated connection. */
  function GetWallets<W>(s: Session, table: W): (r: Result<W, ApiError>)
    ensures r.Failure? <==> !s.authenticated
    ensures r.Success? ==> r.value == table
  {
    match RequireAuthenticated(s)
    case Failure(e) => Failure(e)
    case Success(_) => Success(table)
  }

  /**
   * An "OK" authentication callback opens every authenticated-only operation, any
   * other status closes them all, and in neither case is anything sent.
   */
  lemma AuthCallbackGatesOrders(s: Session, status: string, order: string)
    ensures PlaceOrder(AuthCallback(s, status), order).Success? <==> status == "OK"
    ensures GetWallets(AuthCallback(s, status), ()).Success? <==> status == "OK"
    ensures AuthCallback(s, status).outbox == s.outbox
  {
  }
}

=== FILE: json.dfy ===
/**
 * Pre-parsed JSON values and the org.json accessors the broker uses on them.
 * Every accessor returns None exactly where org.json throws a JSONException.
 */
module JsonValues {
  import opened Basics

  /** A parsed JSON value; numbers are integers. */
  datatype Json =
    | JNull
    | JBool(b: bool)
    | JInt(n: int)
    | JStr(s: string)
    | JArr(items: seq<Json>)
    | JObj(fields: map<string, Json>)

  const TwoTo31: int := 0x8000_0000
  const TwoTo32: int := 0x1_0000_0000

  predicate IsInt32(i: int) {
    -TwoTo31 <= i < TwoTo31
  }

  /** Java's `Number.intValue()`: keep the low 32 bits, read them as two's complement. */
  function Int32(i: int): (r: int)
    ensures IsInt32(r)
    ensures (i - r) % TwoTo32 == 0
    ensures IsInt32(i) ==> r == i
  {
    var low := i % TwoTo32;
    if low >= TwoTo31 then low - TwoTo32 else low
  }

  /** `JSONObject.getString(key)`: present only when the field is a JSON string. */
  function GetString(o: map<string, Json>, key: string): (r: Option<string>)
    ensures r.Some? <==> key in o && o[key].JStr?
    ensures r.Some? ==> o[key] == JStr(r.value)
  {
    if key in o && o[key].JStr? then Some(o[key].s) else None
  }

  /** `JSONObject.getInt(key)`: present only when the field is a number, narrowed to 32 bits. */
  function GetInt(o: map<string, Json>, key: string): (r: Option<int>)
    ensures r.Some? <==> key in o && o[key].JInt?
    ensures r.Some? ==> IsInt32(r.value) && r.value == Int32(o[key].n)
  {
    if key in o && o[key].JInt? then Some(Int32(o[key].n)) else None
  }

  /** `JSONArray.getInt(i)`. */
  function ItemInt(a: seq<Json>, i: nat): (r: Option<int>)
    ensures r.Some? <==> i < |a| && a[i].JInt?
    ensures r.Some? ==> IsInt32(r.value) && r.value == Int32(a[i].n)
  {
    if i < |a| && a[i].JInt? then Some(Int32(a[i].n)) else None
  }

  /** `JSONArray.getString(i)`. */
  function ItemString(a: seq<Json>, i: nat): (r: Option<string>)
    ensures r.Some? <==> i < |a| && a[i].JStr?
    ensures r.Some? ==> a[i] == JStr(r.value)
  {
    if i < |a| && a[i].JStr? then Some(a[i].s) else None
  }

  /** `String.startsWith` for a one-character prefix. */
  predicate StartsWith(text: string, c: char) {
    |text| > 0 && text[0] == c
  }
}

=== FILE: reconnect.dfy ===
/**
 * Connection set-up and recovery: the authentication handshake, `connect`, the
 * resubscribe protocol with its bounded wait and rollback, and `reconnect`.
 * A blocking wait is modelled by the frames the receive path processes while the
 * caller waits; the wait itself always returns (by release or by timeout).
 */
module Reconnect {
  import opened Basics
  import opened JsonValues
  import opened Symbols
  import opened Registry
  import opened Broker
  import opened Router

  /** The session after an attempt, and whether the attempt succeeded. */
  datatype Attempt = Attempt(session: Session, ok: bool)

  /**
   * `executeAuthentification`: arm a fresh latch; with credentials, send the auth
   * command, let the frames `during` the wait arrive, and fail exactly when the
   * connection is still unauthenticated afterwards.
   */
  function ExecuteAuthentication(s: Session, dec: Decoders, during: seq<Delivery>): (a: Attempt)
    ensures a.ok <==> !HasCredentials(s) || a.session.authenticated
    ensures a.session.credentials == s.credentials
    ensures !HasCredentials(s) ==> a.session == s.(readyLatch := Some(ConnectionReadyEvents))
    ensures HasCredentials(s) ==> a.session.outbox == s.outbox + [AuthCmd]
    ensures HasCredentials(s) ==> a.session.readyLatch.Some? && a.session.readyLatch.value <= ConnectionReadyEvents
  {
    var armed := s.(readyLatch := Some(ConnectionReadyEvents));
    if HasCredentials(armed) then
      var waited := ProcessAll(Send(armed, AuthCmd), dec, during);
      Attempt(waited, waited.authenticated)
    else
      Attempt(armed, true)
  }

  /** Without an "auth" reply during the wait, an unauthenticated connection with credentials fails. */
  lemma NoAuthReplyFails(s: Session, dec: Decoders, during: seq<Delivery>)
    requires HasCredentials(s) && !s.authenticated
    requires forall i :: 0 <= i < |during| ==> !IsAuthEvent(during[i].msg)
    ensures !ExecuteAuthentication(s, dec, during).ok
    ensures !ExecuteAuthentication(s, dec, during).session.authenticated
  {
    ProcessAllKeepsAuth(Send(s.(readyLatch := Some(ConnectionReadyEvents)), AuthCmd), dec, during);
  }

  /** The authentication wait leaves the registry alone when no registry event arrives during it. */
  lemma AuthWaitKeepsRegistry(s: Session, dec: Decoders, during: seq<Delivery>)
    requires forall i :: 0 <= i < |during| ==> !IsRegistryEvent(during[i].msg)
    ensures ExecuteAuthentication(s, dec, during).session.channels == s.channels
  {
    if HasCredentials(s) {
      ProcessAllKeepsRegistry(Send(s.(readyLatch := Some(ConnectionReadyEvents)), AuthCmd), dec, during);
    }
  }

  /**
   * `isAuthenticatedConnection` decides the handshake: a broker missing its key or its
   * secret skips authentication, sends nothing and cannot fail; with both it sends the
   * auth command.
   */
  lemma HandshakeNeedsKeyAndSecret(s: Session, dec: Decoders, during: seq<Delivery>)
    ensures s.credentials.apiKey.None? || s.credentials.apiSecret.None? ==>
      var a := ExecuteAuthentication(s, dec, during);
      a.ok && a.session.outbox == s.outbox && a.session.authenticated == s.authenticated
    ensures s.credentials.apiKey.Some? && s.credentials.apiSecret.Some? ==>
      ExecuteAuthentication(s, dec, during).session.outbox == s.outbox + [AuthCmd]
  {
  }

  /**
   * `connect`: a transport that does not come up fails the call with the session
   * untouched; otherwise the heartbeat is refreshed and the handshake decides.
   */
  function Connect(s: Session, dec: Decoders, transportUp: bool, now: nat, during: seq<Delivery>): (a: Attempt)
    ensures !transportUp ==> a == Attempt(s, false)
    ensures transportUp ==> (a.ok <==> !HasCredentials(s) || a.session.authenticated)
    ensures transportUp && !HasCredentials(s) ==>
      a.session == s.(heartbeat := now, readyLatch := Some(ConnectionReadyEvents))
    ensures transportUp ==> a == ExecuteAuthentication(TouchHeartbeat(s, now), dec, during)
    ensures transportUp && HasCredentials(s) ==>
      a.session.outbox == s.outbox + [AuthCmd] && a.session.credentials == s.credentials
      && a.session.readyLatch.Some? && a.session.readyLatch.value <= ConnectionReadyEvents
  {
    if !transportUp then Attempt(s, false)
    else ExecuteAuthentication(TouchHeartbeat(s, now), dec, during)
  }

  /** An "OK" auth reply lets a connection with credentials succeed; any other status fails it. */
  lemma ConnectWithAuthReply(s: Session, dec: Decoders, now: nat, t: nat, status: string)
    requires HasCredentials(s)
    ensures
      var reply := Message("{" + "\"event\":\"auth\",\"status\":\"" + status + "\"}",
        Some(JObj(map["event" := JStr("auth"), "status" := JStr(status)])));
      var a := Connect(s, dec, true, now, [Delivery(t, reply)]);
      (a.ok <==> status == "OK") && (a.session.authenticated <==> status == "OK")
  {
    var reply := Message("{" + "\"event\":\"auth\",\"status\":\"" + status + "\"}",
      Some(JObj(map["event" := JStr("auth"), "status" := JStr(status)])));
    assert [Delivery(t, reply)][1..] == [];
    assert StartsWith(reply.text, '{');
    var o := reply.json.value.fields;
    assert GetString(o, "event") == Some("auth");
    assert GetString(o, "status") == Some(status);
    var sent := Send(TouchHeartbeat(s, now).(readyLatch := Some(ConnectionReadyEvents)), AuthCmd);
    var step := Route(sent, dec, t, reply);
    assert step == HandleAuth(sent, o);
    assert ProcessAll(sent, dec, [Delivery(t, reply)]) == step.session;
  }

  /** How many times the resubscribe wait checks the registry size: execution 0 through 11. */
  const MaxChecks: nat := 12

  /** The subscribe commands for the channels of `m`, in the order `order` lists them. */
  function Resubscriptions(m: Channels, order: seq<int>): (cmds: seq<Command>)
    requires forall i :: 0 <= i < |order| ==> order[i] in m
    ensures |cmds| == |order|
    ensures forall i :: 0 <= i < |order| ==> cmds[i] == SubscribeFor(m[order[i]])
    decreases |order|
  {
    if order == [] then []
    else Resubscriptions(m, order[..|order| - 1]) + [SubscribeFor(m[order[|order| - 1]])]
  }

  /** A list of channel ids naming every channel of `m` exactly once. */
  predicate Enumerates(m: Channels, order: seq<int>) {
    && (forall i :: 0 <= i < |order| ==> order[i] in m)
    && (forall i, j :: 0 <= i < j < |order| ==> order[i] != order[j])
    && (forall k :: k in m ==> k in order)
  }

  /** The session right after the snapshot is taken, the registry cleared and the resubscriptions sent. */
  function Cleared(s: Session, order: seq<int>): (r: Session)
    requires forall i :: 0 <= i < |order| ==> order[i] in s.channels
    ensures r.channels == map[]
    ensures r.outbox == s.outbox + Resubscriptions(s.channels, order)
    ensures r.(channels := s.channels, outbox := s.outbox) == s
  {
    s.(channels := map[], outbox := s.outbox + Resubscriptions(s.channels, order))
  }

  /** The session at the registry check number `k` of the wait: after `arrivals[0..k]`. */
  function Polled(start: Session, dec: Decoders, arrivals: seq<seq<Delivery>>, k: nat): Session
    requires k < |arrivals|
    decreases k
  {
    var before := if k == 0 then start else Polled(start, dec, arrivals, k - 1);
    ProcessAll(before, dec, arrivals[k])
  }

  /** The registry check number `k` of the wait sees as many channels as the snapshot `s` held. */
  predicate Confirmed(s: Session, dec: Decoders, arrivals: seq<seq<Delivery>>, order: seq<int>, k: nat)
    requires forall i :: 0 <= i < |order| ==> order[i] in s.channels
  {
    k < |arrivals| && |Polled(Cleared(s, order), dec, arrivals, k).channels| == |s.channels|
  }

  /** Lists the channel ids of `m`, each once, in an order the model leaves open (HashMap order). */
  method EnumerateChannels(m: Channels) returns (order: seq<int>)
    ensures Enumerates(m, order)
    ensures |order| == |m|
  {
    order := [];
    var unsent := m.Keys;
    while exists k :: k in unsent
      invariant unsent <= m.Keys
      invariant forall i :: 0 <= i < |order| ==> order[i] in m && order[i] !in unsent
      invariant forall i, j :: 0 <= i < j < |order| ==> order[i] != order[j]
      invariant forall k :: k in m ==> k in unsent || k in order
      invariant |order| + |unsent| == |m|
      decreases unsent
    {
      var k :| k in unsent;
      order := order + [k];
      unsent := unsent - {k};
    }
    assert unsent == {};
  }

  /**
   * The wait loop of `resubscribeChannels`: `checks[k]` is the session the k-th size
   * check sees (execution = k). It succeeds at the first check whose registry size
   * equals the snapshot's; when all twelve miss, the registry is replaced by `snapshot`.
   */
  method AwaitResubscription(checks: seq<Session>, snapshot: Channels) returns (ok: bool, r: Session)
    requires |checks| == MaxChecks
    ensures ok <==> exists k :: 0 <= k < MaxChecks && |checks[k].channels| == |snapshot|
    ensures ok ==> |r.channels| == |snapshot|
    ensures ok ==> exists k :: 0 <= k < MaxChecks && r == checks[k]
                             && forall j :: 0 <= j < k ==> |checks[j].channels| != |snapshot|
    ensures !ok ==> r == checks[MaxChecks - 1].(channels := snapshot)
  {
    var execution := 0;
    r := checks[0];
    while |r.channels| != |snapshot|
      invariant 0 <= execution < MaxChecks
      invariant r == checks[execution]
      invariant forall j :: 0 <= j < execution ==> |checks[j].channels| != |snapshot|
      decreases MaxChecks - execution
    {
      if execution > 10 {
        r := r.(channels := snapshot);
        ok := false;
        return;
      }
      execution := execution + 1;
      r := checks[execution];
    }
    ok := true;
  }

  /**
   * `resubscribeChannels`: snapshot and clear the registry, send one subscribe
   * command per snapshot channel, then run the wait loop, the k-th check seeing the
   * session after `arrivals[0..k]`. Success compares sizes only, so the bindings may
   * differ from the snapshot; on failure the registry is exactly the snapshot again.
   */
  method Resubscribe(s: Session, dec: Decoders, arrivals: seq<seq<Delivery>>)
    returns (ok: bool, r: Session, order: seq<int>)
    requires |arrivals| == MaxChecks
    ensures Enumerates(s.channels, order)
    ensures |order| == |s.channels|
    ensures r.outbox == s.outbox + Resubscriptions(s.channels, order)
    ensures r.credentials == s.credentials
    ensures ok <==> exists k :: 0 <= k < MaxChecks && Confirmed(s, dec, arrivals, order, k)
    ensures ok ==> |r.channels| == |s.channels|
    ensures ok ==> exists k :: 0 <= k < MaxChecks && r == Polled(Cleared(s, order), dec, arrivals, k)
                             && Confirmed(s, dec, arrivals, order, k)
                             && (forall j :: 0 <= j < k ==> !Confirmed(s, dec, arrivals, order, j))
    ensures !ok ==> r.channels == s.channels
    ensures !ok ==> r == Polled(Cleared(s, order), dec, arrivals, MaxChecks - 1).(channels := s.channels)
  {
    order := EnumerateChannels(s.channels);
    var start := Cleared(s, order);
    var checks := seq(MaxChecks, k requires 0 <= k < MaxChecks => Polled(start, dec, arrivals, k));
    assert forall k :: 0 <= k < MaxChecks ==> checks[k] == Polled(start, dec, arrivals, k);
    ok, r := AwaitResubscription(checks, s.channels);
    PolledKeepsOutbox(start, dec, arrivals, MaxChecks - 1);
    if ok {
      var k :| 0 <= k < MaxChecks && r == checks[k]
               && forall j :: 0 <= j < k ==> |checks[j].channels| != |s.channels|;
      PolledKeepsOutbox(start, dec, arrivals, k);
      assert Confirmed(s, dec, arrivals, order, k);
      assert forall j :: 0 <= j < k ==> !Confirmed(s, dec, arrivals, order, j);
    } else {
      assert forall k :: 0 <= k < MaxChecks ==> !Confirmed(s, dec, arrivals, order, k);
    }
  }

  /** The frames seen while waiting never send anything. */
  lemma {:induction false} PolledKeepsOutbox(start: Session, dec: Decoders, arrivals: seq<seq<Delivery>>, k: nat)
    requires k < |arrivals|
    ensures Polled(start, dec, arrivals, k).outbox == start.outbox
    ensures Polled(start, dec, arrivals, k).credentials == start.credentials
    decreases k
  {
    if k > 0 {
      PolledKeepsOutbox(start, dec, arrivals, k - 1);
    }
  }

  /** When no registry event arrives during the wait, every check sees the registry the wait started with. */
  lemma {:induction false} QuietWaitKeepsRegistry(start: Session, dec: Decoders, arrivals: seq<seq<Delivery>>, k: nat)
    requires k < |arrivals|
    requires forall b, i :: 0 <= b < |arrivals| && 0 <= i < |arrivals[b]| ==> !IsRegistryEvent(arrivals[b][i].msg)
    ensures Polled(start, dec, arrivals, k).channels == start.channels
    decreases k
  {
    var before := if k == 0 then start else Polled(start, dec, arrivals, k - 1);
    if k > 0 {
      QuietWaitKeepsRegistry(start, dec, arrivals, k - 1);
    }
    ProcessAllKeepsRegistry(before, dec, arrivals[k]);
  }

  /**
   * The rollback case: with channels bound before the resubscription and no
   * "subscribed" confirmation arriving, all twelve checks miss, so the resubscription
   * fails and (by Resubscribe's contract) the registry is restored to the snapshot.
   */
  lemma UnconfirmedResubscriptionFails(s: Session, dec: Decoders, arrivals: seq<seq<Delivery>>, order: seq<int>)
    requires |arrivals| == MaxChecks && |s.channels| > 0
    requires forall i :: 0 <= i < |order| ==> order[i] in s.channels
    requires forall b, i :: 0 <= b < |arrivals| && 0 <= i < |arrivals[b]| ==> !IsRegistryEvent(arrivals[b][i].msg)
    ensures forall k :: 0 <= k < MaxChecks ==> |Polled(Cleared(s, order), dec, arrivals, k).channels| != |s.channels|
  {
    forall k | 0 <= k < MaxChecks
      ensures |Polled(Cleared(s, order), dec, arrivals, k).channels| != |s.channels|
    {
      QuietWaitKeepsRegistry(Cleared(s, order), dec, arrivals, k);
    }
  }

  /**
   * `{"event":"subscribed","channel":"candles","key":"trade:1m:tBTCUSD","chanId":9}`,
   * written as its first character plus the rest, as `Router.BtcSubscribed` is.
   */
  const CandleSubscribed: Message :=
    Message("{" + "\"event\":\"subscribed\",\"channel\":\"candles\",\"key\":\"trade:1m:tBTCUSD\",\"chanId\":9}",
      Some(JObj(map["event" := JStr("subscribed"), "channel" := JStr("candles"),
                    "key" := JStr("trade:1m:tBTCUSD"), "chanId" := JInt(9)])))

  /** The candle confirmation binds channel 9 to the decoded candle symbol. */
  lemma CandleConfirmationBinds(start: Session, dec: Decoders, t: nat, candle: string)
    requires dec.candle("trade:1m:tBTCUSD") == Some(candle)
    ensures Route(start, dec, t, CandleSubscribed).session.channels == Bind(start.channels, 9, Candle(candle))
  {
    var o := CandleSubscribed.json.value.fields;
    assert StartsWith(CandleSubscribed.text, '{');
    assert GetString(o, "event") == Some("subscribed");
    assert GetString(o, "channel") == Some("candles");
    assert GetInt(o, "chanId") == Some(9);
    assert GetString(o, "key") == Some("trade:1m:tBTCUSD");
    assert SubscribedSymbol(dec, o, "candles") == Some(Candle(candle));
    assert Route(start, dec, t, CandleSubscribed) == HandleApiCallback(start, dec, t, o);
  }

  /**
   * The wait compares sizes only: a snapshot holding one ticker is matched by a
   * confirmation for an unrelated candle channel, so the first check already
   * succeeds although the registry differs from the snapshot.
   */
  lemma SizeMatchIsNotEquality(s: Session, dec: Decoders, arrivals: seq<seq<Delivery>>, t: nat, candle: string)
    requires s.channels == map[1 := Ticker("tBTCUSD")]
    requires |arrivals| == MaxChecks && arrivals[0] == [Delivery(t, CandleSubscribed)]
    requires dec.candle("trade:1m:tBTCUSD") == Some(candle)
    ensures |Polled(Cleared(s, [1]), dec, arrivals, 0).channels| == |s.channels|
    ensures Polled(Cleared(s, [1]), dec, arrivals, 0).channels != s.channels
  {
    var start := Cleared(s, [1]);
    CandleConfirmationBinds(start, dec, t, candle);
    var after := Route(start, dec, t, CandleSubscribed).session;
    assert after.channels == map[9 := Candle(candle)];
    assert arrivals[0][1..] == [];
    assert ProcessAll(start, dec, arrivals[0]) == ProcessAll(after, dec, []);
    assert Polled(start, dec, arrivals, 0) == after;
    assert 9 !in s.channels;
  }

  /** Which step of `reconnect` decided its outcome. */
  datatype ReconnectOutcome = Reconnected | TransportFailed | AuthFailed | ResubscribeFailed

  /**
   * The first step of `reconnect`: the connection is no longer authenticated and the
   * per-symbol heartbeat marks are invalidated; nothing else changes.
   */
  function Invalidate(s: Session): (r: Session)
    ensures !r.authenticated && r.symbolBeats == map[]
    ensures r.(authenticated := s.authenticated, symbolBeats := s.symbolBeats) == s
  {
    s.(authenticated := false, symbolBeats := map[])
  }

  /**
   * `reconnect`: clear the authentication flag, reopen the transport, re-run the
   * handshake, resubscribe, and refresh the heartbeat; the first failing step ends it.
   */
  method Reconnect(s: Session, dec: Decoders, transportUp: bool, during: seq<Delivery>,
                   arrivals: seq<seq<Delivery>>, now: nat)
    returns (outcome: ReconnectOutcome, r: Session)
    requires |arrivals| == MaxChecks
    ensures outcome == TransportFailed <==> !transportUp
    ensures !transportUp ==> r == Invalidate(s)
    ensures outcome == AuthFailed ==> HasCredentials(s) && !r.authenticated
    ensures outcome == AuthFailed ==> r == ExecuteAuthentication(Invalidate(s), dec, during).session
    ensures outcome == Reconnected || outcome == ResubscribeFailed ==>
      ExecuteAuthentication(Invalidate(s), dec, during).ok
    ensures outcome == ResubscribeFailed ==>
      r.channels == ExecuteAuthentication(Invalidate(s), dec, during).session.channels
    ensures outcome == ResubscribeFailed && (forall i :: 0 <= i < |during| ==> !IsRegistryEvent(during[i].msg))
      ==> r.channels == s.channels
    ensures outcome == Reconnected ==>
      r.heartbeat == now && |r.channels| == |ExecuteAuthentication(Invalidate(s), dec, during).session.channels|
    ensures transportUp && !ExecuteAuthentication(Invalidate(s), dec, during).ok ==> outcome == AuthFailed
    ensures transportUp && HasCredentials(s) ==> s.outbox + [AuthCmd] <= r.outbox
    ensures transportUp && ExecuteAuthentication(Invalidate(s), dec, during).ok ==>
      var a := ExecuteAuthentication(Invalidate(s), dec, during).session;
      exists order ::
        && Enumerates(a.channels, order)
        && r.outbox == a.outbox + Resubscriptions(a.channels, order)
        && (outcome == Reconnected <==> exists k :: 0 <= k < MaxChecks && Confirmed(a, dec, arrivals, order, k))
        && (outcome == Reconnected ==>
              exists k :: 0 <= k < MaxChecks && r == TouchHeartbeat(Polled(Cleared(a, order), dec, arrivals, k), now)
                       && Confirmed(a, dec, arrivals, order, k)
                       && (forall j :: 0 <= j < k ==> !Confirmed(a, dec, arrivals, order, j)))
        && (outcome == ResubscribeFailed ==>
              r == Polled(Cleared(a, order), dec, arrivals, MaxChecks - 1).(channels := a.channels))
    ensures r.credentials == s.credentials
  {
    var s0 := Invalidate(s);
    if !transportUp {
      return TransportFailed, s0;
    }
    var auth := ExecuteAuthentication(s0, dec, during);
    if !auth.ok {
      return AuthFailed, auth.session;
    }
    var resubscribed, s2, order := Resubscribe(auth.session, dec, arrivals);
    if (forall i :: 0 <= i < |during| ==> !IsRegistryEvent(during[i].msg)) {
      AuthWaitKeepsRegistry(s0, dec, during);
    }
    if !resubscribed {
      outcome, r := ResubscribeFailed, s2;
    } else {
      outcome, r := Reconnected, TouchHeartbeat(s2, now);
      var k :| 0 <= k < MaxChecks && s2 == Polled(Cleared(auth.session, order), dec, arrivals, k)
        && Confirmed(auth.session, dec, arrivals, order, k)
        && (forall j :: 0 <= j < k ==> !Confirmed(auth.session, dec, arrivals, order, j));
      assert r == TouchHeartbeat(Polled(Cleared(auth.session, order), dec, arrivals, k), now);
    }
    assert r.outbox == auth.session.outbox + Resubscriptions(auth.session.channels, order);
  }
}

=== FILE: registry.dfy ===
/**
 * The channel registry: the broker's map from server-assigned channel ids to the
 * stream symbols they carry, with the reverse lookup by symbol.
 */
module Registry {
  import opened Basics
  import opened Symbols

  type Channels = map<int, StreamSymbol>

  /** The value `getChannelForSymbol` returns when no channel carries the symbol. */
  const NoChannel: int := -1

  /** True when some channel carries `sym`. */
  predicate Bound(m: Channels, sym: StreamSymbol) {
    exists k :: k in m && m[k] == sym
  }

  /** `addToChannelSymbolMap`: `c` now carries `sym`, whatever it carried before. */
  function Bind(m: Channels, c: int, sym: StreamSymbol): (r: Channels)
    ensures c in r && r[c] == sym
    ensures r.Keys == m.Keys + {c}
    ensures forall k :: k in m && k != c ==> r[k] == m[k]
    ensures |r| == if c in m then |m| else |m| + 1
  {
    m[c := sym]
  }

  /** The map removal of `handleUnsubscribedCallback`: only `c` loses its binding. */
  function Unbind(m: Channels, c: int): (r: Channels)
    ensures c !in r
    ensures r.Keys == m.Keys - {c}
    ensures forall k :: k in r ==> r[k] == m[k]
    ensures c !in m ==> r == m
    ensures |r| == if c in m then |m| - 1 else |m|
  {
    m - {c}
  }

  /** `getFromChannelSymbolMap`: the symbol on channel `c`, or nothing. */
  function Resolve(m: Channels, c: int): (r: Option<StreamSymbol>)
    ensures r.None? <==> c !in m
    ensures r.Some? ==> r.value == m[c]
  {
    if c in m then Some(m[c]) else None
  }

  /**
   * `getChannelForSymbol`: some channel carrying `sym` (the Java stream uses
   * `findAny`, so which one is left open), or NoChannel when there is none.
   * NoChannel is also a legal key, so a binding on channel -1 reads as "not found".
   */
  method ChannelForSymbol(m: Channels, sym: StreamSymbol) returns (c: int)
    ensures c != NoChannel ==> c in m && m[c] == sym
    ensures !Bound(m, sym) ==> c == NoChannel
    ensures c == NoChannel && Bound(m, sym) ==> NoChannel in m && m[NoChannel] == sym
    ensures NoChannel !in m ==> (c == NoChannel <==> !Bound(m, sym))
  {
    var unseen := m.Keys;
    while exists k :: k in unseen
      invariant unseen <= m.Keys
      invariant forall k :: k in m && k !in unseen ==> m[k] != sym
      decreases unseen
    {
      var k: int :| k in unseen;
      if m[k] == sym {
        return k;
      }
      unseen := unseen - {k};
    }
    return NoChannel;
  }

  /** `isTickerActive`: whether the currency pair's ticker has a channel. */
  method IsTickerActive(m: Channels, pair: string) returns (active: bool)
    ensures active ==> exists k :: k in m && k != NoChannel && m[k] == Ticker(pair)
    ensures Bound(m, Ticker(pair)) && !(NoChannel in m && m[NoChannel] == Ticker(pair)) ==> active
  {
    var c := ChannelForSymbol(m, Ticker(pair));
    active := c != NoChannel;
  }

  /**
   * `removeChannelForSymbol`: drop the one channel found for `sym` and report
   * whether there was one; the registry is untouched otherwise.
   */
  method RemoveChannelForSymbol(m: Channels, sym: StreamSymbol) returns (removed: bool, r: Channels)
    ensures removed ==> exists c :: c in m && c != NoChannel && m[c] == sym && r == Unbind(m, c)
    ensures removed ==> |r| == |m| - 1
    ensures !removed ==> r == m
    ensures Bound(m, sym) && !(NoChannel in m && m[NoChannel] == sym) ==> removed
    ensures !Bound(m, sym) ==> !removed
  {
    var c := ChannelForSymbol(m, sym);
    if c != NoChannel {
      removed, r := true, Unbind(m, c);
    } else {
      removed, r := false, m;
    }
  }

  /** One registry mutation, as the control events perform them. */
  datatype Op = BindOp(channel: int, symbol: StreamSymbol) | UnbindOp(channel: int)

  function Apply(m: Channels, ops: seq<Op>): Channels
    decreases |ops|
  {
    if ops == [] then m
    else
      var m' := match ops[0]
        case BindOp(c, sym) => Bind(m, c, sym)
        case UnbindOp(c) => Unbind(m, c);
      Apply(m', ops[1..])
  }

  /** What the last operation on channel `c` in `ops` left it with, or `before` if none touched it. */
  function LastFor(ops: seq<Op>, c: int, before: Option<StreamSymbol>): Option<StreamSymbol>
    decreases |ops|
  {
    if ops == [] then before
    else
      var last := ops[|ops| - 1];
      if last.channel == c then (if last.BindOp? then Some(last.symbol) else None)
      else LastFor(ops[..|ops| - 1], c, before)
  }

  lemma {:induction false} ApplySnoc(m: Channels, ops: seq<Op>, op: Op)
    ensures Apply(m, ops + [op]) == Apply(Apply(m, ops), [op])
    decreases |ops|
  {
    if ops == [] {
      assert ops + [op] == [op];
    } else {
      var m' := match ops[0]
        case BindOp(c, sym) => Bind(m, c, sym)
        case UnbindOp(c) => Unbind(m, c);
      assert (ops + [op])[1..] == ops[1..] + [op];
      ApplySnoc(m', ops[1..], op);
    }
  }

  /**
   * After any sequence of binds and unbinds, every channel resolves to exactly
   * what the last operation on it left, and to its old value when none touched it.
   */
  lemma {:induction false} ResolveAfterOps(m: Channels, ops: seq<Op>, c: int)
    ensures Resolve(Apply(m, ops), c) == LastFor(ops, c, Resolve(m, c))
    decreases |ops|
  {
    if ops != [] {
      var init := ops[..|ops| - 1];
      var last := ops[|ops| - 1];
      assert ops == init + [last];
      ApplySnoc(m, init, last);
      ResolveAfterOps(m, init, c);
    }
  }
}

=== FILE: router.dfy ===
/**
 * Frame routing: `websocketCallback` and everything it calls, over frames whose
 * JSON has already been parsed. Routing is total: every frame yields a new session
 * and an effect, and the effect says whether the frame was handled, handed to an
 * external handler, dropped with a log line, or aborted by a failed JSON access.
 */
module Router {
  import opened Basics
  import opened JsonValues
  import opened Symbols
  import opened Registry
  import opened Broker

  /**
   * One inbound text frame: its text (whose first character selects the route) and
   * what the JSON tokenizer made of it (None when it could not parse the text).
   */
  datatype Message = Message(text: string, json: Option<Json>)

  /** A frame together with the clock reading at which it is processed. */
  datatype Delivery = Delivery(now: nat, msg: Message)

  /** The handlers registered for channel 0 in `setupChannelHandler`. */
  datatype SignalHandler =
    | HeartbeatHandler
    | PositionHandler
    | DoNothingHandler
    | WalletHandler
    | OrderHandler
    | NotificationHandler

  /** The per-symbol stream handlers of `handleChannelData`. */
  datatype StreamHandler = TickHandler | CandlestickHandler | TradeOrderbookHandler

  /** Why a frame was logged and dropped. */
  datatype Drop =
    | UnknownCallback       // neither an object nor an array
    | UnknownEvent          // an event name outside the handled five
    | UnknownSubscription   // "subscribed" for a channel kind other than ticker, candles, book
    | NoSignalHandler       // a channel-0 tag outside the table
    | UnknownChannel        // a channel id the registry does not resolve
    | UnprocessableString   // a string payload other than "hb"

  datatype Effect =
    | Handled
    | Dropped(reason: Drop)
    | Faulted   // a JSON access or symbol constructor threw; earlier state changes stay
    | ToSignal(signal: SignalHandler, frame: seq<Json>)
    | ToStream(stream: StreamHandler, symbol: StreamSymbol, payload: seq<Json>)

  datatype Step = Step(session: Session, effect: Effect)

  /** The channel-0 tag table of `setupChannelHandler`. */
  const TagTable: map<string, SignalHandler> := map[
    "hb" := HeartbeatHandler,
    "ps" := PositionHandler,
    "pn" := PositionHandler,
    "pu" := PositionHandler,
    "pc" := PositionHandler,
    "fos" := DoNothingHandler,
    "fcs" := DoNothingHandler,
    "fls" := DoNothingHandler,
    "ats" := DoNothingHandler,
    "ws" := WalletHandler,
    "wu" := WalletHandler,
    "os" := OrderHandler,
    "on" := OrderHandler,
    "ou" := OrderHandler,
    "oc" := OrderHandler,
    "te" := DoNothingHandler,
    "tu" := DoNothingHandler,
    "n" := NotificationHandler]

  /** The table registers exactly the eighteen tags, and only the order tags reach the order handler. */
  lemma TagTableShape()
    ensures TagTable.Keys == {"hb", "ps", "pn", "pu", "pc", "fos", "fcs", "fls", "ats",
                              "ws", "wu", "os", "on", "ou", "oc", "te", "tu", "n"}
    ensures forall t :: t in TagTable ==> (TagTable[t] == OrderHandler <==> t in {"os", "on", "ou", "oc"})
  {
  }

  /** The stream handler for a symbol: exactly one per symbol kind. */
  function StreamHandlerFor(sym: StreamSymbol): (h: StreamHandler)
    ensures h == TickHandler <==> sym.Ticker?
    ensures h == CandlestickHandler <==> sym.Candle?
    ensures h == TradeOrderbookHandler <==> sym.Book?
  {
    match sym
    case Candle(_) => CandlestickHandler
    case Book(_) => TradeOrderbookHandler
    case Ticker(_) => TickHandler
  }

  /**
   * The symbol a "subscribed" event describes: a ticker from its "symbol" field, a
   * candle from its "key" field, a book from the whole event; None when the field is
   * missing or the symbol constructor fails.
   */
  function SubscribedSymbol(dec: Decoders, o: map<string, Json>, channel: string): (r: Option<StreamSymbol>)
    requires channel in {"ticker", "candles", "book"}
    ensures channel == "ticker" ==>
      (r.Some? <==> GetString(o, "symbol").Some? && dec.pair(GetString(o, "symbol").value).Some?)
    ensures channel == "ticker" && r.Some? ==> r.value == Ticker(dec.pair(GetString(o, "symbol").value).value)
    ensures channel == "candles" ==>
      (r.Some? <==> GetString(o, "key").Some? && dec.candle(GetString(o, "key").value).Some?)
    ensures channel == "candles" && r.Some? ==> r.value == Candle(dec.candle(GetString(o, "key").value).value)
    ensures channel == "book" ==> (r.Some? <==> dec.book(o).Some?)
    ensures channel == "book" && r.Some? ==> r.value == Book(dec.book(o).value)
  {
    if channel == "ticker" then
      match GetString(o, "symbol")
      case None => None
      case Some(sym) =>
        match dec.pair(sym)
        case None => None
        case Some(p) => Some(Ticker(p))
    else if channel == "candles" then
      match GetString(o, "key")
      case None => None
      case Some(key) =>
        match dec.candle(key)
        case None => None
        case Some(k) => Some(Candle(k))
    else
      match dec.book(o)
      case None => None
      case Some(b) => Some(Book(b))
  }

  /**
   * `handleSubscribedCallback`: a ticker, candles or book subscription binds its
   * channel id to the decoded symbol and changes nothing else; any other channel
   * kind leaves the session as it was.
   */
  function HandleSubscribed(s: Session, dec: Decoders, o: map<string, Json>): (r: Step)
    ensures r.session.(channels := s.channels) == s
    ensures r.effect.Handled? ==>
      && GetString(o, "channel").Some? && GetString(o, "channel").value in {"ticker", "candles", "book"}
      && GetInt(o, "chanId").Some?
      && SubscribedSymbol(dec, o, GetString(o, "channel").value).Some?
      && r.session.channels ==
           Bind(s.channels, GetInt(o, "chanId").value, SubscribedSymbol(dec, o, GetString(o, "channel").value).value)
    ensures !r.effect.Handled? ==> r.session == s
    ensures r.effect.Handled? || r.effect.Faulted? || r.effect == Dropped(UnknownSubscription)
    ensures GetString(o, "channel").Some? && GetString(o, "channel").value in {"ticker", "candles", "book"}
            && GetInt(o, "chanId").Some?
            && SubscribedSymbol(dec, o, GetString(o, "channel").value).Some?
            ==> r.effect.Handled?
    ensures GetString(o, "channel").None? || GetInt(o, "chanId").None? ==> r == Step(s, Faulted)
    ensures GetString(o, "channel").Some? && GetString(o, "channel").value in {"ticker", "candles", "book"}
            && GetInt(o, "chanId").Some?
            && SubscribedSymbol(dec, o, GetString(o, "channel").value).None?
            ==> r == Step(s, Faulted)
    ensures GetString(o, "channel").Some? && GetInt(o, "chanId").Some?
            && GetString(o, "channel").value !in {"ticker", "candles", "book"}
            ==> r == Step(s, Dropped(UnknownSubscription))
  {
    match GetString(o, "channel")
    case None => Step(s, Faulted)
    case Some(channel) =>
      match GetInt(o, "chanId")
      case None => Step(s, Faulted)
      case Some(id) =>
        if channel in {"ticker", "candles", "book"} then
          match SubscribedSymbol(dec, o, channel)
          case None => Step(s, Faulted)
          case Some(sym) => Step(s.(channels := Bind(s.channels, id, sym)), Handled)
        else Step(s, Dropped(UnknownSubscription))
  }

  /** `handleUnsubscribedCallback`: only the named channel loses its binding. */
  function HandleUnsubscribed(s: Session, o: map<string, Json>): (r: Step)
    ensures GetInt(o, "chanId").None? ==> r == Step(s, Faulted)
    ensures GetInt(o, "chanId").Some? ==>
      && r.effect.Handled?
      && r.session.channels == Unbind(s.channels, GetInt(o, "chanId").value)
      && r.session.(channels := s.channels) == s
  {
    match GetInt(o, "chanId")
    case None => Step(s, Faulted)
    case Some(id) => Step(s.(channels := Unbind(s.channels, id)), Handled)
  }

  /** `handleAuthCallback`, including the read of its status field. */
  function HandleAuth(s: Session, o: map<string, Json>): (r: Step)
    ensures GetString(o, "status").None? ==> r == Step(s, Faulted)
    ensures GetString(o, "status").Some? ==>
      && r.effect.Handled?
      && (r.session.authenticated <==> GetString(o, "status").value == "OK")
      && r.session == AuthCallback(s, GetString(o, "status").value)
  {
    match GetString(o, "status")
    case None => Step(s, Faulted)
    case Some(status) => Step(AuthCallback(s, status), Handled)
  }

  /** `handleAPICallback`: dispatch an object frame on its "event" field. */
  function HandleApiCallback(s: Session, dec: Decoders, now: nat, o: map<string, Json>): (r: Step)
    ensures GetString(o, "event").None? ==> r == Step(s, Faulted)
    ensures GetString(o, "event") == Some("info") ==> r == Step(s, Handled)
    ensures GetString(o, "event") == Some("pong") ==> r == Step(TouchHeartbeat(s, now), Handled)
    ensures GetString(o, "event") == Some("subscribed") ==> r == HandleSubscribed(s, dec, o)
    ensures GetString(o, "event") == Some("unsubscribed") ==> r == HandleUnsubscribed(s, o)
    ensures GetString(o, "event") == Some("auth") ==> r == HandleAuth(s, o)
    ensures GetString(o, "event").Some? && !IsKnownEvent(GetString(o, "event").value)
            ==> r == Step(s, Dropped(UnknownEvent))
  {
    match GetString(o, "event")
    case None => Step(s, Faulted)
    case Some(event) =>
      if event == "info" then Step(s, Handled)
      else if event == "subscribed" then HandleSubscribed(s, dec, o)
      else if event == "pong" then Step(TouchHeartbeat(s, now), Handled)
      else if event == "unsubscribed" then HandleUnsubscribed(s, o)
      else if event == "auth" then HandleAuth(s, o)
      else Step(s, Dropped(UnknownEvent))
  }

  predicate IsKnownEvent(event: string) {
    event in {"info", "subscribed", "pong", "unsubscribed", "auth"}
  }

  /** `handleSignalingChannelData`: channel 0 frames go to the handler their tag names. */
  function HandleSignaling(s: Session, a: seq<Json>): (r: Step)
    ensures r.session == s
    ensures ItemString(a, 1).None? ==> r.effect.Faulted?
    ensures ItemString(a, 1).Some? && ItemString(a, 1).value in TagTable
            ==> r.effect == ToSignal(TagTable[ItemString(a, 1).value], a)
    ensures ItemString(a, 1).Some? && ItemString(a, 1).value !in TagTable
            ==> r.effect == Dropped(NoSignalHandler)
  {
    match ItemString(a, 1)
    case None => Step(s, Faulted)
    case Some(tag) =>
      if tag in TagTable then Step(s, ToSignal(TagTable[tag], a))
      else Step(s, Dropped(NoSignalHandler))
  }

  /**
   * `handleChannelData` for a non-zero channel `c`: an unresolved channel is dropped;
   * a "hb" string marks that symbol's heartbeat and nothing else; another string is
   * rejected; an array payload goes to the symbol kind's stream handler.
   */
  function HandleChannelData(s: Session, now: nat, a: seq<Json>, c: int): (r: Step)
    ensures Resolve(s.channels, c).None? ==> r == Step(s, Dropped(UnknownChannel))
    ensures r.session.(symbolBeats := s.symbolBeats) == s
    ensures r.session.symbolBeats != s.symbolBeats ==>
      && c in s.channels && 2 <= |a| && a[1] == JStr("hb")
      && r.session.symbolBeats == s.symbolBeats[s.channels[c] := now]
    ensures c in s.channels && 2 <= |a| && a[1] == JStr("hb") ==>
      r == Step(s.(symbolBeats := s.symbolBeats[s.channels[c] := now]), Handled)
    ensures c in s.channels && 2 <= |a| && a[1].JStr? && a[1] != JStr("hb") ==>
      r == Step(s, Dropped(UnprocessableString))
    ensures c in s.channels && 2 <= |a| && a[1].JArr? ==>
      r == Step(s, ToStream(StreamHandlerFor(s.channels[c]), s.channels[c], a[1].items))
    ensures c in s.channels && (|a| < 2 || !(a[1].JStr? || a[1].JArr?)) ==> r == Step(s, Faulted)
  {
    match Resolve(s.channels, c)
    case None => Step(s, Dropped(UnknownChannel))
    case Some(sym) =>
      if |a| < 2 then Step(s, Faulted)
      else
        match a[1]
        case JStr(v) =>
          if v == "hb" then Step(s.(symbolBeats := s.symbolBeats[sym := now]), Handled)
          else Step(s, Dropped(UnprocessableString))
        case JArr(sub) => Step(s, ToStream(StreamHandlerFor(sym), sym, sub))
        case _ => Step(s, Faulted)
  }

  /** `handleChannelCallback` after its heartbeat refresh and parse: split on channel 0. */
  function HandleChannelCallback(s: Session, now: nat, a: seq<Json>): (r: Step)
    ensures ItemInt(a, 0).None? ==> r == Step(s, Faulted)
    ensures ItemInt(a, 0) == Some(0) ==> r == HandleSignaling(s, a)
    ensures ItemInt(a, 0).Some? && ItemInt(a, 0).value != 0 ==>
      r == HandleChannelData(s, now, a, ItemInt(a, 0).value)
  {
    match ItemInt(a, 0)
    case None => Step(s, Faulted)
    case Some(c) =>
      if c == 0 then HandleSignaling(s, a) else HandleChannelData(s, now, a, c)
  }

  /**
   * `websocketCallback`: a frame starting with `{` is a control event, one starting
   * with `[` refreshes the connection heartbeat and is then channel data, anything
   * else is dropped untouched.
   */
  function Route(s: Session, dec: Decoders, now: nat, msg: Message): (r: Step)
    ensures StartsWith(msg.text, '{') ==>
      r == (match msg.json
            case Some(JObj(o)) => HandleApiCallback(s, dec, now, o)
            case _ => Step(s, Faulted))
    ensures !StartsWith(msg.text, '{') && StartsWith(msg.text, '[') ==>
      r.session.heartbeat == now &&
      r == (match msg.json
            case Some(JArr(a)) => HandleChannelCallback(TouchHeartbeat(s, now), now, a)
            case _ => Step(TouchHeartbeat(s, now), Faulted))
    ensures !StartsWith(msg.text, '{') && !StartsWith(msg.text, '[') ==>
      r == Step(s, Dropped(UnknownCallback))
    ensures r.session.credentials == s.credentials && r.session.outbox == s.outbox
    ensures !IsRegistryEvent(msg) ==> r.session.channels == s.channels
    ensures !IsAuthEvent(msg) ==> r.session.authenticated == s.authenticated
    ensures !IsAuthEvent(msg) ==> r.session.readyLatch == s.readyLatch
    ensures s.readyLatch.Some? ==> r.session.readyLatch.Some? && r.session.readyLatch.value <= s.readyLatch.value
  {
    if StartsWith(msg.text, '{') then
      match msg.json
      case Some(JObj(o)) => HandleApiCallback(s, dec, now, o)
      case _ => Step(s, Faulted)
    else if StartsWith(msg.text, '[') then
      var s1 := TouchHeartbeat(s, now);
      match msg.json
      case Some(JArr(a)) => HandleChannelCallback(s1, now, a)
      case _ => Step(s1, Faulted)
    else Step(s, Dropped(UnknownCallback))
  }

  /** The event name of a control frame, when it has one. */
  function EventOf(msg: Message): Option<string> {
    if StartsWith(msg.text, '{') && msg.json.Some? && msg.json.value.JObj? then
      GetString(msg.json.value.fields, "event")
    else None
  }

  /** A "subscribed" or "unsubscribed" control frame: the only frames that touch the registry. */
  predicate IsRegistryEvent(msg: Message) {
    EventOf(msg) == Some("subscribed") || EventOf(msg) == Some("unsubscribed")
  }

  /** An "auth" control frame: the only frame that touches the authentication flag. */
  predicate IsAuthEvent(msg: Message) {
    EventOf(msg) == Some("auth")
  }

  /** The frames the receive path processes, in order (for instance, while a caller waits). */
  function ProcessAll(s: Session, dec: Decoders, ds: seq<Delivery>): (r: Session)
    ensures r.credentials == s.credentials && r.outbox == s.outbox
    ensures s.readyLatch.Some? ==> r.readyLatch.Some? && r.readyLatch.value <= s.readyLatch.value
    decreases |ds|
  {
    if ds == [] then s
    else ProcessAll(Route(s, dec, ds[0].now, ds[0].msg).session, dec, ds[1..])
  }

  /** Frames with no "subscribed" or "unsubscribed" event among them leave the registry alone. */
  lemma {:induction false} ProcessAllKeepsRegistry(s: Session, dec: Decoders, ds: seq<Delivery>)
    requires forall i :: 0 <= i < |ds| ==> !IsRegistryEvent(ds[i].msg)
    ensures ProcessAll(s, dec, ds).channels == s.channels
    decreases |ds|
  {
    if ds != [] {
      var s1 := Route(s, dec, ds[0].now, ds[0].msg).session;
      assert !IsRegistryEvent(ds[0].msg);
      assert forall i :: 0 <= i < |ds[1..]| ==> ds[1..][i] == ds[i + 1];
      ProcessAllKeepsRegistry(s1, dec, ds[1..]);
    }
  }

  /** Frames with no "auth" event among them leave the authentication flag and the latch alone. */
  lemma {:induction false} ProcessAllKeepsAuth(s: Session, dec: Decoders, ds: seq<Delivery>)
    requires forall i :: 0 <= i < |ds| ==> !IsAuthEvent(ds[i].msg)
    ensures ProcessAll(s, dec, ds).authenticated == s.authenticated
    ensures ProcessAll(s, dec, ds).readyLatch == s.readyLatch
    decreases |ds|
  {
    if ds != [] {
      var s1 := Route(s, dec, ds[0].now, ds[0].msg).session;
      assert !IsAuthEvent(ds[0].msg);
      assert forall i :: 0 <= i < |ds[1..]| ==> ds[1..][i] == ds[i + 1];
      ProcessAllKeepsAuth(s1, dec, ds[1..]);
    }
  }

  /**
   * Unknown input is never fatal: an unknown event, an unknown channel-0 tag, an
   * unresolved channel id or a frame that is neither object nor array is dropped,
   * and at most the connection heartbeat changes.
   */
  lemma UnknownInputDropped(s: Session, dec: Decoders, now: nat, msg: Message)
    requires
      || (EventOf(msg).Some? && !IsKnownEvent(EventOf(msg).value))
      || (!StartsWith(msg.text, '{') && !StartsWith(msg.text, '['))
      || (!StartsWith(msg.text, '{') && StartsWith(msg.text, '[') && msg.json.Some? && msg.json.value.JArr?
          && var a := msg.json.value.items;
          && ItemInt(a, 0).Some?
          && (if ItemInt(a, 0).value == 0
              then ItemString(a, 1).Some? && ItemString(a, 1).value !in TagTable
              else ItemInt(a, 0).value !in s.channels))
    ensures Route(s, dec, now, msg).effect.Dropped?
    ensures Route(s, dec, now, msg).session.(heartbeat := s.heartbeat) == s
  {
  }

  /** A "pong" event and every array frame refresh the connection heartbeat. */
  lemma HeartbeatRefreshed(s: Session, dec: Decoders, now: nat, msg: Message)
    requires EventOf(msg) == Some("pong") || (!StartsWith(msg.text, '{') && StartsWith(msg.text, '['))
    ensures Route(s, dec, now, msg).session.heartbeat == now
  {
  }

  /**
   * `{"event":"subscribed","channel":"ticker","symbol":"tBTCUSD","chanId":5}`. The text
   * is written as its first character plus the rest so that the solver sees the `{`
   * that selects the route without unfolding the whole literal.
   */
  const BtcSubscribed: Message :=
    Message("{" + "\"event\":\"subscribed\",\"channel\":\"ticker\",\"symbol\":\"tBTCUSD\",\"chanId\":5}",
      Some(JObj(map["event" := JStr("subscribed"), "channel" := JStr("ticker"),
                    "symbol" := JStr("tBTCUSD"), "chanId" := JInt(5)])))

  /** `[5,"hb"]` */
  const Channel5Heartbeat: Message := Message("[5,\"hb\"]", Some(JArr([JInt(5), JStr("hb")])))

  /** The tBTCUSD ticker subscription binds channel 5 to the decoded pair and changes nothing else. */
  lemma BtcSubscribedBinds(s: Session, dec: Decoders, t: nat, pair: string)
    requires dec.pair("tBTCUSD") == Some(pair)
    ensures Route(s, dec, t, BtcSubscribed) == Step(s.(channels := Bind(s.channels, 5, Ticker(pair))), Handled)
  {
    var o := BtcSubscribed.json.value.fields;
    assert StartsWith(BtcSubscribed.text, '{');
    assert GetString(o, "event") == Some("subscribed");
    assert GetString(o, "channel") == Some("ticker");
    assert GetInt(o, "chanId") == Some(5);
    assert GetString(o, "symbol") == Some("tBTCUSD");
    assert SubscribedSymbol(dec, o, "ticker") == Some(Ticker(pair));
    assert Route(s, dec, t, BtcSubscribed) == HandleApiCallback(s, dec, t, o);
  }

  /** `[5,"hb"]` on a bound channel 5 refreshes both heartbeats and reaches no handler. */
  lemma Channel5HeartbeatMarks(s: Session, dec: Decoders, t: nat)
    requires 5 in s.channels
    ensures Route(s, dec, t, Channel5Heartbeat) ==
      Step(s.(heartbeat := t, symbolBeats := s.symbolBeats[s.channels[5] := t]), Handled)
  {
    var a := Channel5Heartbeat.json.value.items;
    assert !StartsWith(Channel5Heartbeat.text, '{') && StartsWith(Channel5Heartbeat.text, '[');
    assert ItemInt(a, 0) == Some(5);
    assert a[1] == JStr("hb");
  }

  /**
   * The subscribe-then-heartbeat scenario: after the ticker subscription for channel 5,
   * channel 5 resolves to that ticker, and a following `[5,"hb"]` frame marks the
   * ticker's heartbeat without reaching any stream handler.
   */
  lemma SubscribeThenHeartbeat(s: Session, dec: Decoders, t1: nat, t2: nat, pair: string)
    requires dec.pair("tBTCUSD") == Some(pair)
    ensures Resolve(Route(s, dec, t1, BtcSubscribed).session.channels, 5) == Some(Ticker(pair))
    ensures
      var s1 := Route(s, dec, t1, BtcSubscribed).session;
      var s2 := Route(s1, dec, t2, Channel5Heartbeat);
      && s2.effect == Handled
      && s2.session.channels == s1.channels
      && s2.session.symbolBeats == s1.symbolBeats[Ticker(pair) := t2]
      && s2.session.heartbeat == t2
  {
    BtcSubscribedBinds(s, dec, t1, pair);
    var s1 := Route(s, dec, t1, BtcSubscribed).session;
    Channel5HeartbeatMarks(s1, dec, t2);
  }
}

=== FILE: symbols.dfy ===
/**
 * Stream symbols (the subscription keys the channel registry stores) and the
 * outbound commands the broker hands to its command encoder.
 */
module Symbols {
  import opened Basics
  import opened JsonValues

  /**
   * The closed set of stream symbol kinds: a currency pair ticker, a candlestick
   * key and a trading order book configuration. Each carries the identity that the
   * (external) symbol constructor produced.
   */
  datatype StreamSymbol =
    | Ticker(pair: string)
    | Candle(key: string)
    | Book(config: string)

  /**
   * The foreign symbol constructors `BitfinexCurrencyPair.fromSymbolString`,
   * `BitfinexCandlestickSymbol.fromBitfinexString` and
   * `TradeOrderbookConfiguration.fromJSON`; None stands for the constructor throwing.
   */
  datatype Decoders = Decoders(
    pair: string -> Option<string>,
    candle: string -> Option<string>,
    book: map<string, Json> -> Option<string>)

  /** Commands the broker sends; their wire encoding is external. */
  datatype Command =
    | AuthCmd
    | SubscribeTicker(pair: string)
    | SubscribeCandles(key: string)
    | SubscribeBook(config: string)
    | NewOrder(order: string)
    | CancelOrder(id: int)
    | CancelOrderGroup(group: int)

  predicate IsSubscribe(c: Command) {
    c.SubscribeTicker? || c.SubscribeCandles? || c.SubscribeBook?
  }

  /** The subscribe command that re-requests a symbol's stream, one per symbol kind. */
  function SubscribeFor(sym: StreamSymbol): (c: Command)
    ensures IsSubscribe(c)
    ensures SymbolOf(c) == sym
  {
    match sym
    case Ticker(p) => SubscribeTicker(p)
    case Candle(k) => SubscribeCandles(k)
    case Book(b) => SubscribeBook(b)
  }

  /** The symbol a subscribe command asks for. */
  function SymbolOf(c: Command): StreamSymbol
    requires IsSubscribe(c)
  {
    match c
    case SubscribeTicker(p) => Ticker(p)
    case SubscribeCandles(k) => Candle(k)
    case SubscribeBook(b) => Book(b)
  }
}
